=== FILE: README.md ===
# Pilotnet algorithm module: frame lifecycle model

This project models the frame lifecycle of the pilotnet "algorithm module" of an
ESP32 camera pipeline (`components/modules/algorithm/algo_pilotnet.cpp`). The
module sits between an upstream camera stage and downstream stages. It pulls
camera frame buffers from an input queue and runs a steering-angle network on
each one. It then hands each frame on, back or away, and signals completion.

The model is a transition system over one immutable state record (`Pilotnet.State`):

- the input, output, result and event queues, as sequences;
- the gate flag `gEvent`;
- the configuration stored at registration: which optional queue handles are non-null, and `gReturnFB`;
- the program counter of the processing task;
- the engine's input tensor and the first element of its output tensor;
- a log of the terminal dispositions applied to frames (forward, camera return, free).

There are four kinds of step:

- One loop iteration of `task_process_handler` (`Pilotnet.Process`). It checks the gate and receives one frame. It then dispatches on the channel count to a colorspace routine, which stays abstract. It preprocesses the input tensor and makes an abstract `Invoke` call that may fail. It applies exactly one disposition in priority order and may send a completion signal.
- One receive of `task_event_handler`, which overwrites the gate (`Pilotnet.Control`).
- An upstream send of a frame or of a gate value (`Runs.Action`).
- The setup sequence of `register_algo_pilotnet` (`Setup.Register`). It is a function from the arguments and the abstract setup outcomes to a return code, the set of started tasks and the module's globals afterwards.

The two tasks are atomic steps of one system, so a run (`Runs.Run`) is any
interleaving of the two tasks' steps with upstream sends. The lemmas in `Runs`
cover whole runs:

- every frame is either still queued or disposed exactly once;
- the output queue and result queue track the disposition log;
- turning the gate off stops consumption.

Modules:

- `Bytes`: the unsigned and signed views of a byte.
- `Bridge`: channel dispatch, the documented recentering, and the preprocessing loop as written.
- `Pilotnet`: the state and the two task steps.
- `Runs`: actions and runs.
- `Setup`: registration and the initial state.

Behaviours of the code that the model keeps:

- There is no channel-count check at registration (lines 164-247). Any count other than 1 or 3 selects no conversion, and the iteration goes on normally (lines 82-85; `Bridge.SelectConversion`, `Pilotnet.ChannelCountOnlyAffectsTensor`).
- `gEvent` is only statically initialised to `true` (line 32), and `register_algo_pilotnet` does not touch it (`Setup.Register` keeps `gate`).
- `gEvent` is read once, and then the task blocks in `xQueueReceive` with `portMAX_DELAY` (lines 75-77). A gate turned off while the task is blocked there does not stop that receive, so one more frame is consumed. The model keeps this with the program counter `Pc`: at most one frame is consumed after the gate goes off (`Runs.GatedOffDrainsAtMostOne`), and that one is (`Runs.GatedOffDrainReached`).
- The results of `xTaskCreatePinnedToCore` are not checked (lines 242-246). `register_algo_pilotnet` returns 0 even when a task could not be created (`Setup.ReturnCodeIgnoresTaskCreation`).

One point where the model departs from the code: the preprocessing loop writes the constant 127 (line 106), while `Pilotnet.Process` and `Bridge.Prepare` store the documented `u - 128` recentering. See Findings, and the matching lines under Left out.

## Model

| member | source | states |
|---|---|---|
| `Bytes.AsUnsigned` | components/modules/algorithm/algo_pilotnet.cpp:104-106 | reading a stored int8 through the `uint8` view gives the same byte modulo 256 |
| `Bytes.AsSigned` | components/modules/algorithm/algo_pilotnet.cpp:82-85 | a byte written through the `uint8` view, read back as int8, is the same byte modulo 256 |
| `Bytes.ViewsAgree` | components/modules/algorithm/algo_pilotnet.cpp:104-106 | the two views of one byte undo each other |
| `Bridge.Channels` | components/modules/algorithm/algo_pilotnet.cpp:69-71 | the channel count the task dispatches on is `dims->data[3]` truncated to `uint16_t`: in [0, 65535] and congruent to it modulo 2^16 |
| `Bridge.SelectConversion` | components/modules/algorithm/algo_pilotnet.cpp:82-85 | gray iff the count is 1, rgb888 iff it is 3, no conversion (and no error) for every other count |
| `Bridge.Recenter` | components/modules/algorithm/algo_pilotnet.cpp:42-47 | the documented `u - 128` is undone by adding 128 back; the stored byte is `u` with its top bit flipped |
| `Bridge.RecenterIsOrderIsomorphism` | components/modules/algorithm/algo_pilotnet.cpp:42-47 | the recentering maps [0,255] onto [-128,127] and keeps pixel order in both directions |
| `Bridge.RecenterAll` | components/modules/algorithm/algo_pilotnet.cpp:42-47 | recentering a buffer keeps its length, and undoing it element-wise gives back the unsigned image |
| `Bridge.RecenterAllBijective` | components/modules/algorithm/algo_pilotnet.cpp:42-47 | buffer recentering is onto the signed buffers and injective, so it is a bijection |
| `Bridge.Preprocess` | components/modules/algorithm/algo_pilotnet.cpp:103-107 | the in-place loop over all `input->bytes` elements, with the documented element mapping, computes the recentering of the buffer's unsigned view |
| `Bridge.PreprocessAsWritten` | components/modules/algorithm/algo_pilotnet.cpp:103-107 | the loop as coded keeps the buffer length |
| `Bridge.PreprocessAsWrittenIgnoresInput` | components/modules/algorithm/algo_pilotnet.cpp:104-107 | the loop as coded gives the same tensor for any two images of the same size |
| `Bridge.PreprocessAsWrittenMatchesIntentIff` | components/modules/algorithm/algo_pilotnet.cpp:104-107 | the loop as coded agrees with the documented mapping exactly when every element is 255 |
| `Bridge.PreprocessAsWrittenLosesBlack` | components/modules/algorithm/algo_pilotnet.cpp:106 | on a black pixel the code writes 127 where the documented mapping gives -128 |
| `Bridge.Convert` | components/modules/algorithm/algo_pilotnet.cpp:82-85 | with a routine selected, the buffer's unsigned view becomes the routine's image; with none, the buffer is untouched |
| `Bridge.Prepare` | components/modules/algorithm/algo_pilotnet.cpp:82-107 | the prepared tensor decodes back to the converted image; with no conversion it is the buffer the step starts from recentered once more (the model's buffer is what the previous iteration prepared, see Left out) |
| `Bridge.PrepareSeparatesImages` | components/modules/algorithm/algo_pilotnet.cpp:42-47 | with the documented mapping, different images never give the same tensor |
| `Pilotnet.RouteFor` | components/modules/algorithm/algo_pilotnet.cpp:135-146 | disposition priority: forward iff an output queue exists; camera return iff no output queue and `gReturnFB`; free iff neither |
| `Pilotnet.Process` | components/modules/algorithm/algo_pilotnet.cpp:73-152 | a step consumes a frame iff the task runs, has a frame waiting, and is past the gate or finds it open; without the task nothing changes; at the gate with the gate off nothing changes; past the gate or with the gate open on an empty queue the task blocks in the receive and changes nothing else; a consumed frame is the head of the input queue, gets exactly one disposition by priority, goes to the output queue iff one exists, and is followed by one signal iff a result queue exists; the decoded offset plus the zero point is the output value |
| `Pilotnet.Control` | components/modules/algorithm/algo_pilotnet.cpp:156-162 | the event task's receive overwrites the gate with the received value and changes nothing else; without a started task or a value it is a no-op |
| `Pilotnet.InvokeFailureIsNonFatal` | components/modules/algorithm/algo_pilotnet.cpp:112-151 | a failed `Invoke` consumes, disposes and signals exactly as a successful one; only the stale output value is decoded |
| `Pilotnet.ChannelCountOnlyAffectsTensor` | components/modules/algorithm/algo_pilotnet.cpp:82-85 | the channel count changes neither the queues, the log nor the decoded value of an iteration |
| `Pilotnet.ControlOverwritesGate` | components/modules/algorithm/algo_pilotnet.cpp:160 | the new gate does not depend on the old one (overwrite, not toggle) |
| `Runs.IterateConserves` | components/modules/algorithm/algo_pilotnet.cpp:77-146 | one iteration of the processing task either changes neither the input queue nor the log, or moves exactly the head of the input queue to the log with the priority route; no frame is created or dropped |
| `Runs.StepConserves` | components/modules/algorithm/algo_pilotnet.cpp:77-146 | one action moves frames between the input queue and the log and adds only the frame it brings |
| `Runs.GatedOffStep` | components/modules/algorithm/algo_pilotnet.cpp:75 | with the gate off and the task at the gate, any action except the event task's receive leaves the log, the output and result queues and the gate unchanged, and only an arriving frame grows the input queue |
| `Runs.OutputStep` | components/modules/algorithm/algo_pilotnet.cpp:135-138 | one action sends to the output queue exactly the frame it disposes if the queue exists, and the log only grows |
| `Runs.Conservation` | components/modules/algorithm/algo_pilotnet.cpp:77-146 | over any run, the queued and disposed frames together are exactly the frames queued or disposed at the start plus those that arrived |
| `Runs.ExactlyOnce` | components/modules/algorithm/algo_pilotnet.cpp:135-146 | with distinct frames, every frame that was queued or arrives ends a run either still queued or disposed, never both, and none is disposed twice |
| `Runs.RunKeepsSetup` | components/modules/algorithm/algo_pilotnet.cpp:64-162 | the tasks never change the stored configuration, the engine parameters or the set of running tasks |
| `Runs.LogExtends` | components/modules/algorithm/algo_pilotnet.cpp:135-146 | a run only appends to the disposition log; earlier entries are never changed or removed |
| `Runs.LogFollowsPriority` | components/modules/algorithm/algo_pilotnet.cpp:135-146 | the disposition log only grows, and every entry a run adds takes the configuration's priority route |
| `Runs.OutputMirrorsDisposals` | components/modules/algorithm/algo_pilotnet.cpp:135-138 | the output queue receives exactly the newly disposed frames, in order, if it exists, and nothing otherwise |
| `Runs.OneSignalPerFrame` | components/modules/algorithm/algo_pilotnet.cpp:148-151 | the result queue grows by one signal per disposed frame if it exists, and does not change otherwise |
| `Runs.GatedOffStopsConsumption` | components/modules/algorithm/algo_pilotnet.cpp:75-77 | with the gate off at the gate and no gate value received, the input queue only grows by arrivals and nothing is disposed or signalled |
| `Runs.GatedOffDrainReached` | components/modules/algorithm/algo_pilotnet.cpp:75-77 | a task that finds the gate open on an empty queue blocks receiving; after the gate is turned off, the next frame to arrive is still consumed and disposed by priority |
| `Runs.GatedOffDrainsAtMostOne` | components/modules/algorithm/algo_pilotnet.cpp:75-77 | after the gate goes off, at most one frame is consumed, and only if the task was already blocked receiving |
| `Setup.Boot` | components/modules/algorithm/algo_pilotnet.cpp:27-56 | the static initial values: every queue handle null, `gReturnFB` and `gEvent` true (lines 27-33), a zero-initialised `tensor_arena` (line 56) and no task running, so frames would go back to the camera pool |
| `Setup.Register` | components/modules/algorithm/algo_pilotnet.cpp:164-247 | returns 0 or -1; handles and `gReturnFB` are stored whatever the outcome and the gate is untouched; 0 iff the version matches, an arena exists or is allocated, and tensors are allocated; on -1 no task starts; on 0 the processing task is started iff its creation succeeded, and the event task iff the event queue is non-null and its creation succeeded; the running tasks are those of earlier registrations plus the ones started now; malloc is called iff the version matches and the arena is null |
| `Setup.ChecksRunInOrder` | components/modules/algorithm/algo_pilotnet.cpp:177-222 | a version mismatch fails before the arena is touched; a missing arena fails before `AllocateTensors` is reached |
| `Setup.ReturnCodeIgnoresTaskCreation` | components/modules/algorithm/algo_pilotnet.cpp:242-246 | the return code is the same whatever the outcome of either task creation, since neither result is checked |
| `Setup.ReRegistrationKeepsArena` | components/modules/algorithm/algo_pilotnet.cpp:186-189 | after a successful registration, registering again never calls the allocator and keeps the arena |
| `Setup.Start` | components/modules/algorithm/algo_pilotnet.cpp:242-246 | the module after registration runs exactly the tasks registrations have left running, with empty input, output, result and event queues, an empty log, the processing task at the gate, the stored configuration and gate, and the given engine parameters and tensors |
| `Setup.IdleStep` | components/modules/algorithm/algo_pilotnet.cpp:242-246 | with no task started, one action only queues the frame it brings |
| `Setup.IdleRun` | components/modules/algorithm/algo_pilotnet.cpp:242-246 | with no task started, a run only queues what arrives |
| `Setup.FailedSetupNeverConsumes` | components/modules/algorithm/algo_pilotnet.cpp:177-246 | when no earlier registration left a task running, after a failed registration no frame is ever consumed, disposed or signalled and the gate never changes |
| `Setup.FailedReRegistrationKeepsRunning` | components/modules/algorithm/algo_pilotnet.cpp:170-181 | a failed registration after a successful one overwrites the handles and `gReturnFB` but leaves the earlier processing task running: with the gate open it consumes the next frame and disposes of it by the new handles' priority |
| `Setup.EndToEnd` | components/modules/algorithm/algo_pilotnet.cpp:121-151 | three channels, zero point -10, no output queue, camera return on, result queue present, engine output 12: the frame is returned to the camera exactly once, one signal is sent, and the decoded offset is 22 |

## Findings

| source | as written | input that shows it | evidently intended | confidence | as-written member | corrected member |
|---|---|---|---|---|---|---|
| components/modules/algorithm/algo_pilotnet.cpp:104-107 | every element of the input tensor is set to the constant 127, so the network sees the same input for every frame | any frame, e.g. a black pixel `u = 0`: the code writes 127 | `int8[i] = uint8[i] - 128`, as the comment at lines 42-47 and the trailing comment on line 106 say, giving -128 | high; not executed | `Bridge.PreprocessAsWritten`, exhibited by `Bridge.PreprocessAsWrittenLosesBlack` and `Bridge.PreprocessAsWrittenMatchesIntentIff` | `Bridge.RecenterAll`, proved bijective by `Bridge.RecenterAllBijective` and used by `Pilotnet.Process` through `Bridge.Prepare` |

## Left out

- TensorFlow Lite Micro is not modelled: `GetModel`, the op resolver, the interpreter, `AllocateTensors` and `Invoke` are foreign calls. They appear only as abstract outcomes (`Setup.SetupOutcome`, `Pilotnet.Invoke`).
- The colorspace routines `rgb565_to_gray` and `rgb565_to_rgb888` are foreign image code. The image such a routine writes is a parameter of the step. Only the choice of routine is recorded. An image whose length differs from the tensor's is clipped to it, because the code's behaviour on a size mismatch (a buffer overrun) is not modelled.
- Bridge.PreprocessAsWritten: its contract states only that the buffer length is kept. What it writes is stated by the lemmas about it (`Bridge.PreprocessAsWrittenIgnoresInput`, `Bridge.PreprocessAsWrittenMatchesIntentIff`, `Bridge.PreprocessAsWrittenLosesBlack`).
- Pilotnet.Process: the input tensor it stores is the documented recentering `u - 128`, not the constant 127 that line 106 writes. This is the Findings row. The as-written fill is modelled separately by `Bridge.PreprocessAsWritten`.
- Bridge.Prepare: it applies the documented recentering `u - 128`, not the constant 127 fill of line 106, for the same reason as `Pilotnet.Process`.
- Pilotnet.Process: `Invoke` is assumed not to write the input tensor. The tensor lives in the engine's arena, and the engine may reuse that memory while it runs. The model stores the prepared tensor as the state's buffer, so with no conversion selected the next iteration recenters what this one prepared, not what `Invoke` left there.
- Pilotnet.Process: a failed `Invoke` is assumed to leave the output tensor's first element unchanged, because what the engine leaves in the tensor after a failure is not visible in this code.
- Output decoding in floating point (`(q - zero_point) * scale` and `rad2deg`) is left out. Only the integer offset `q - zero_point` is modelled.
- Timing (`esp_timer_get_time`) and the `vTaskDelay` after invocation are left out, as are the `printf` and `MicroPrintf` logging. These are instrumentation and scheduling courtesy.
- The `debug_mode` base64 dump of the input buffer is left out because it is output only.
- Pilotnet.Process: every loop entry is assumed to read `gEvent` afresh (line 75). `gEvent` is a plain `static bool` (line 32), written by the event task's `xQueueReceive` (line 160) with no `volatile`, atomic or lock. On the gated-off path the loop makes no call between two reads, so a compiler may keep the value in a register and the task may never see the gate reopen. The unsynchronised access is also a data race in C++. The model's two tasks take atomic steps over one shared gate.
- Setup.Start: it builds the module as a fresh start: empty queues and the processing task at the gate. On a re-registration an earlier processing task may instead be blocked in `xQueueReceive` (line 77), and the queue contents from before are not carried over.
- Setup.FailedReRegistrationKeepsRunning: a re-registration is assumed to pass the same input queue. The model has one input queue, and `Config` records only which handles are non-null. An earlier task blocked at line 77 keeps waiting on the queue it was given, so with a different `frame_i` a frame sent to the new queue would never reach that task.
- Queue capacities and blocking sends are left out. The output and result queues are unbounded sequences, so a send never blocks. FreeRTOS scheduling, core pinning, stack sizes and priorities are not modelled.
- A receive that returns without a frame is not modelled. `xQueueReceive` is called with `portMAX_DELAY` and so waits for a frame, which is how the model treats it. In the code the disposition block sits outside the receive's `if`. If the receive could return without a frame, the previous iteration's frame would be disposed again.
- Downstream stages never take frames off the output queue or signals off the result queue in the model. Those stages are outside this module. Without an event queue, a gate value sent by the environment is dropped (`Runs.Apply`), because there is no queue to hold it.
- Heap allocation (`heap_caps_malloc` of `kTensorArenaSize` bytes) and the camera frame-buffer pool are not modelled. The arena is a flag, and frames are opaque identities.
- The interpreter is a function-local `static` (line 212). It is built by the first registration that gets past the version and arena checks (lines 178-194). A registration that fails before that does not build it, and later registrations reuse it. The model has no interpreter state. The running tasks are a set, so a second successful registration, which starts another processing task beside the first, is modelled as one processing task; two copies of the loop racing on the same input queue are left out.
- The input queue handle is assumed non-null. The code does not check it.

=== FILE: bridge.dfy ===
/** The format bridge of the processing task: which colorspace routine the
    input tensor's channel count selects, and how the converted unsigned image
    is carried into the signed domain of an int8-quantized model. */
module Bridge {
  import opened Bytes

  /** The colorspace routine an iteration calls. The routines themselves
      (`rgb565_to_gray`, `rgb565_to_rgb888`) are foreign image code. */
  datatype Conversion = Gray | Rgb888 | NoConversion

  /** The channel count as the task holds it: `input->dims->data[3]` stored
      into a `uint16_t`, i.e. reduced modulo 2^16. */
  function Channels(dim: int): (c: int)
    ensures 0 <= c < 0x1_0000
    ensures (dim - c) % 0x1_0000 == 0
  {
    dim % 0x1_0000
  }

  /** Channel dispatch: one channel selects gray, three select rgb888, and
      every other count selects nothing and raises nothing. */
  function SelectConversion(dim: int): (conv: Conversion)
    ensures conv == Gray <==> Channels(dim) == 1
    ensures conv == Rgb888 <==> Channels(dim) == 3
    ensures conv == NoConversion <==> Channels(dim) != 1 && Channels(dim) != 3
  {
    var c := Channels(dim);
    if c == 1 then Gray else if c == 3 then Rgb888 else NoConversion
  }

  /** The documented unsigned-to-signed recentering of one element. */
  function Recenter(u: uint8): (x: int8)
    ensures Uncenter(x) == u
    ensures AsUnsigned(x) == (u + 0x80) % 0x100
  {
    u - 0x80
  }

  /** The inverse of `Recenter`: back from [-128, 127] to [0, 255]. */
  function Uncenter(x: int8): (u: uint8)
    ensures AsUnsigned(x) == (u + 0x80) % 0x100
  {
    x + 0x80
  }

  /** Recentering is onto [-128, 127] and keeps the order of pixel values. */
  lemma RecenterIsOrderIsomorphism(x: int8, u: uint8, v: uint8)
    ensures Recenter(Uncenter(x)) == x
    ensures u < v <==> Recenter(u) < Recenter(v)
  {
  }

  function UncenterAll(t: seq<int8>): (view: seq<uint8>)
    ensures |view| == |t|
  {
    seq(|t|, i requires 0 <= i < |t| => Uncenter(t[i]))
  }

  /** The documented preprocessing of a whole buffer: `u - 128` on every
      element. Undoing it element-wise gives back the unsigned image. */
  function RecenterAll(view: seq<uint8>): (t: seq<int8>)
    ensures |t| == |view|
    ensures UncenterAll(t) == view
  {
    seq(|view|, i requires 0 <= i < |view| => Recenter(view[i]))
  }

  /** Recentering a buffer is a bijection between unsigned and signed
      buffers of the same length. */
  lemma {:induction false} RecenterAllBijective(t: seq<int8>, a: seq<uint8>, b: seq<uint8>)
    ensures RecenterAll(UncenterAll(t)) == t
    ensures RecenterAll(a) == RecenterAll(b) ==> a == b
  {
    var r := RecenterAll(UncenterAll(t));
    assert |r| == |t|;
    forall i | 0 <= i < |t|
      ensures r[i] == t[i]
    {
      assert UncenterAll(t)[i] == Uncenter(t[i]);
    }
    if RecenterAll(a) == RecenterAll(b) {
      assert a == UncenterAll(RecenterAll(a));
    }
  }

  /** The preprocessing loop AS WRITTEN: every element of the input tensor is
      set to the constant 127, whatever the converted image holds. */
  function PreprocessAsWritten(view: seq<uint8>): (t: seq<int8>)
    ensures |t| == |view|
  {
    seq(|view|, _ => 0x7F)
  }

  /** The as-written preprocessing cannot tell two images apart. */
  lemma PreprocessAsWrittenIgnoresInput(a: seq<uint8>, b: seq<uint8>)
    requires |a| == |b|
    ensures PreprocessAsWritten(a) == PreprocessAsWritten(b)
  {
  }

  /** The as-written preprocessing agrees with the documented recentering
      exactly on the all-white image (every element 255). */
  lemma {:induction false} PreprocessAsWrittenMatchesIntentIff(view: seq<uint8>)
    ensures PreprocessAsWritten(view) == RecenterAll(view)
        <==> forall i :: 0 <= i < |view| ==> view[i] == 0xFF
  {
    if PreprocessAsWritten(view) == RecenterAll(view) {
      forall i | 0 <= i < |view|
        ensures view[i] == 0xFF
      {
        assert PreprocessAsWritten(view)[i] == RecenterAll(view)[i];
      }
    }
  }

  /** A single black pixel shows the discrepancy: the documented mapping gives
      -128, the code writes 127. */
  lemma PreprocessAsWrittenLosesBlack()
    ensures PreprocessAsWritten([0]) == [0x7F]
    ensures RecenterAll([0]) == [-0x80]
  {
  }

  /** What the selected colorspace routine leaves in the input buffer: its
      image written over the buffer from the start, or the buffer untouched
      when the channel count selected no routine. */
  function Convert(conv: Conversion, image: seq<uint8>, mem: seq<int8>): (written: seq<int8>)
    ensures |written| == |mem|
    ensures conv == NoConversion ==> written == mem
    ensures conv != NoConversion && |image| == |mem| ==> UnsignedView(written) == image
  {
    if conv == NoConversion then mem
    else seq(|mem|, i requires 0 <= i < |mem| =>
               if i < |image| then AsSigned(image[i]) else mem[i])
  }

  /** Bridging followed by the documented preprocessing. The prepared tensor
      decodes back to the converted image; with no routine selected it is the
      previous buffer, recentered once more. */
  function Prepare(conv: Conversion, image: seq<uint8>, mem: seq<int8>): (t: seq<int8>)
    ensures |t| == |mem|
    ensures conv != NoConversion && |image| == |mem| ==> UncenterAll(t) == image
    ensures conv == NoConversion ==> UncenterAll(t) == UnsignedView(mem)
  {
    RecenterAll(UnsignedView(Convert(conv, image, mem)))
  }

  /** Under the documented preprocessing the prepared tensor depends on the
      image: two different images of the tensor's size never give the same
      tensor. */
  lemma PrepareSeparatesImages(conv: Conversion, a: seq<uint8>, b: seq<uint8>, mem: seq<int8>)
    requires conv != NoConversion
    requires |a| == |b| == |mem|
    requires a != b
    ensures Prepare(conv, a, mem) != Prepare(conv, b, mem)
  {
  }

  /** The preprocessing loop over the buffer in place, with the documented
      element mapping `int8[i] := uint8[i] - 128`. */
  method Preprocess(mem: seq<int8>) returns (out: seq<int8>)
    ensures out == RecenterAll(UnsignedView(mem))
  {
    out := mem;
    var i := 0;
    while i < |out|
      invariant |out| == |mem|
      invariant 0 <= i <= |out|
      invariant forall k :: 0 <= k < i ==> out[k] == Recenter(AsUnsigned(mem[k]))
      invariant forall k :: i <= k < |out| ==> out[k] == mem[k]
    {
      out := out[i := Recenter(AsUnsigned(out[i]))];
      i := i + 1;
    }
  }
}

=== FILE: bytes.dfy ===
/** Eight-bit values as the tensor arena holds them. The input tensor's buffer
    is one run of bytes that the processing task reads and writes through two
    views of the same memory: `data.uint8` (unsigned) and `data.int8`
    (two's-complement signed). */
module Bytes {

  type uint8 = x: int | 0 <= x < 0x100
  type int8 = x: int | -0x80 <= x < 0x80

  /** The unsigned reading of the byte that stores the signed value `x`. */
  function AsUnsigned(x: int8): (u: uint8)
    ensures u % 0x100 == x % 0x100
  {
    if x < 0 then x + 0x100 else x
  }

  /** The signed reading of the byte that stores the unsigned value `u`. */
  function AsSigned(u: uint8): (x: int8)
    ensures x % 0x100 == u % 0x100
  {
    if u < 0x80 then u else u - 0x100
  }

  /** Both readings name the same byte, so each undoes the other. */
  lemma ViewsAgree(x: int8, u: uint8)
    ensures AsSigned(AsUnsigned(x)) == x
    ensures AsUnsigned(AsSigned(u)) == u
  {
  }

  /** The whole buffer read through the unsigned view. */
  function UnsignedView(mem: seq<int8>): (v: seq<uint8>)
    ensures |v| == |mem|
  {
    seq(|mem|, i requires 0 <= i < |mem| => AsUnsigned(mem[i]))
  }
}

=== FILE: pilotnet.dfy ===
/** The pilotnet algorithm module as a transition system. The processing task
    and the event (control) task each take atomic steps over one immutable
    state record: the module's queues as sequences, the gate flag `gEvent`,
    the configuration fixed at registration, the engine's input and output
    tensors, and a log of the terminal dispositions applied to frames. */
module Pilotnet {
  import opened Bytes
  import opened Bridge

  /** A camera frame buffer, known only by its identity. */
  datatype Frame = Frame(id: nat)

  /** The zero-payload item sent on the result queue after each frame. */
  datatype Signal = Done

  /** The three terminal fates of a frame. */
  datatype Route = Forwarded | ReturnedToCamera | Freed

  datatype Disposal = Disposal(route: Route, frame: Frame)

  /** Which optional queue handles were non-null at registration, and the
      `camera_fb_return` flag (`gReturnFB`). */
  datatype Config = Config(hasOutput: bool, hasResult: bool, hasEvent: bool, returnFB: bool)

  datatype Task = ProcessTask | EventTask

  /** The loaded model's fixed tensor parameters: the input tensor's channel
      dimension and the output tensor's zero point. */
  datatype Engine = Engine(channelDim: int, zeroPoint: int)

  /** Where the processing task is in its loop: about to read the gate, or
      past the gate and blocked receiving the next frame. */
  datatype Pc = AtGate | AwaitingFrame

  datatype State = State(
    cfg: Config,
    engine: Engine,
    tasks: set<Task>,
    gate: bool,
    pc: Pc,
    input: seq<Frame>,
    output: seq<Frame>,
    results: seq<Signal>,
    events: seq<bool>,
    log: seq<Disposal>,
    tensor: seq<int8>,
    outQ: int8)

  /** The abstract outcome of `interpreter->Invoke()`: success with the new
      first element of the output tensor, or failure. */
  datatype Invoke = InvokeOk(q: int8) | InvokeFailed

  /** What one step of the processing task did. `offset` is the decoded
      integer `q - zero_point`; the float scale is not modelled. */
  datatype Iteration =
    | NotRunning
    | GatedOff
    | Blocked
    | Processed(frame: Frame, conversion: Conversion, invokeOk: bool, disposal: Disposal, offset: int)

  datatype StepResult = StepResult(next: State, it: Iteration)

  /** The disposition priority: forward if an output queue exists, else
      return to the camera pool if `gReturnFB`, else free. */
  function RouteFor(cfg: Config): (r: Route)
    ensures r == Forwarded <==> cfg.hasOutput
    ensures r == ReturnedToCamera <==> !cfg.hasOutput && cfg.returnFB
    ensures r == Freed <==> !cfg.hasOutput && !cfg.returnFB
  {
    if cfg.hasOutput then Forwarded
    else if cfg.returnFB then ReturnedToCamera
    else Freed
  }

  /** One step of the processing task. At the gate with `gEvent` false the
      task consumes nothing; otherwise it receives the head of the input
      queue (blocking while the queue is empty), bridges and preprocesses it
      into the input tensor, invokes the engine, applies exactly one
      disposition to the frame, and signals the result queue if there is
      one. A failed invocation is only logged: the iteration goes on with
      whatever the output tensor holds. */
  function Process(s: State, image: seq<uint8>, invoke: Invoke): (r: StepResult)
    ensures r.next.cfg == s.cfg && r.next.engine == s.engine && r.next.tasks == s.tasks
    ensures r.next.gate == s.gate && r.next.events == s.events
    ensures r.it.Processed? <==>
              ProcessTask in s.tasks && (s.gate || s.pc == AwaitingFrame) && |s.input| > 0
    ensures ProcessTask in s.tasks && s.pc == AtGate && !s.gate ==> r.next == s && r.it == GatedOff
    ensures !r.it.Processed? ==> r.next.(pc := s.pc) == s
    ensures ProcessTask !in s.tasks ==> r == StepResult(s, NotRunning)
    ensures ProcessTask in s.tasks && (s.gate || s.pc == AwaitingFrame) && |s.input| == 0 ==>
              r.it == Blocked && r.next == s.(pc := AwaitingFrame)
    ensures r.it.Processed? ==>
              && r.it.frame == s.input[0]
              && r.next.input == s.input[1..]
              && r.it.disposal == Disposal(RouteFor(s.cfg), s.input[0])
              && r.next.log == s.log + [r.it.disposal]
              && r.next.output == (if s.cfg.hasOutput then s.output + [s.input[0]] else s.output)
              && r.next.results == (if s.cfg.hasResult then s.results + [Done] else s.results)
              && r.next.pc == AtGate
    ensures r.it.Processed? ==>
              && r.it.conversion == SelectConversion(s.engine.channelDim)
              && r.next.tensor == Prepare(r.it.conversion, image, s.tensor)
              && (r.it.invokeOk <==> invoke.InvokeOk?)
              && r.next.outQ == (if invoke.InvokeOk? then invoke.q else s.outQ)
              && r.it.offset + s.engine.zeroPoint == r.next.outQ
  {
    if ProcessTask !in s.tasks then StepResult(s, NotRunning)
    else if s.pc == AtGate && !s.gate then StepResult(s, GatedOff)
    else if |s.input| == 0 then StepResult(s.(pc := AwaitingFrame), Blocked)
    else
      assert s.gate || s.pc == AwaitingFrame;
      var f := s.input[0];
      var conv := SelectConversion(s.engine.channelDim);
      var tensor := Prepare(conv, image, s.tensor);
      var q := if invoke.InvokeOk? then invoke.q else s.outQ;
      var d := Disposal(RouteFor(s.cfg), f);
      var next := s.(
        pc := AtGate,
        input := s.input[1..],
        tensor := tensor,
        outQ := q,
        log := s.log + [d],
        output := if d.route == Forwarded then s.output + [f] else s.output,
        results := if s.cfg.hasResult then s.results + [Done] else s.results);
      StepResult(next, Processed(f, conv, invoke.InvokeOk?, d, q - s.engine.zeroPoint))
  }

  /** One step of the event task: receive a value from the event queue and
      overwrite the gate with it. Without a started event task, or with the
      event queue empty, nothing happens. */
  function Control(s: State): (r: State)
    ensures EventTask in s.tasks && |s.events| > 0 ==>
              r.gate == s.events[0] && r.events == s.events[1..]
    ensures r.(gate := s.gate, events := s.events) == s
    ensures EventTask !in s.tasks || |s.events| == 0 ==> r == s
  {
    if EventTask in s.tasks && |s.events| > 0 then
      s.(gate := s.events[0], events := s.events[1..])
    else s
  }

  /** A failed `Invoke` is not fatal: the iteration consumes, disposes and
      signals exactly as a successful one would; only the output tensor keeps
      its previous value, which is what gets decoded. */
  lemma InvokeFailureIsNonFatal(s: State, image: seq<uint8>, q: int8)
    ensures var bad := Process(s, image, InvokeFailed);
            var good := Process(s, image, InvokeOk(q));
            && (bad.it.Processed? <==> good.it.Processed?)
            && (!bad.it.Processed? ==> bad.next == good.next)
            && (bad.it.Processed? ==>
                  && bad.next.(outQ := q) == good.next
                  && bad.it.disposal == good.it.disposal
                  && bad.it.offset == s.outQ - s.engine.zeroPoint)
  {
  }

  /** The channel count decides only the conversion: an unsupported count
      raises no error, and the queues, the log and the decoded output are
      the same as for a supported one. */
  lemma ChannelCountOnlyAffectsTensor(s: State, dim: int, image: seq<uint8>, invoke: Invoke)
    ensures var a := Process(s, image, invoke);
            var b := Process(s.(engine := s.engine.(channelDim := dim)), image, invoke);
            && (a.it.Processed? <==> b.it.Processed?)
            && a.next.input == b.next.input && a.next.output == b.next.output
            && a.next.results == b.next.results && a.next.log == b.next.log
            && a.next.outQ == b.next.outQ
  {
  }

  /** The event task overwrites the gate rather than toggling it: the new
      gate does not depend on the old one. */
  lemma ControlOverwritesGate(s: State)
    requires EventTask in s.tasks && |s.events| > 0
    ensures Control(s.(gate := true)) == Control(s.(gate := false))
  {
  }
}

=== FILE: runs.dfy ===
/** Executions of the module: any interleaving of the two tasks' steps with
    the environment's queue sends. The properties here relate whole runs,
    where the gate may be overwritten between iterations. */
module Runs {
  import opened Bytes
  import opened Pilotnet

  datatype Action =
    | Arrive(frame: Frame)                        // upstream sends a frame on the input queue
    | Command(on: bool)                           // a value is sent on the event queue
    | Iterate(image: seq<uint8>, invoke: Invoke)  // the processing task takes a step
    | Receive                                     // the event task takes a step

  function Apply(s: State, a: Action): (t: State)
  {
    match a
    case Arrive(f) => s.(input := s.input + [f])
    case Command(on) => if s.cfg.hasEvent then s.(events := s.events + [on]) else s
    case Iterate(image, invoke) => Process(s, image, invoke).next
    case Receive => Control(s)
  }

  function Run(s: State, acts: seq<Action>): (t: State)
    decreases |acts|
  {
    if |acts| == 0 then s else Run(Apply(s, acts[0]), acts[1..])
  }

  /** The frames the environment sends during a run, in order. */
  function Arrivals(acts: seq<Action>): (fs: seq<Frame>)
    ensures |fs| <= |acts|
    decreases |acts|
  {
    if |acts| == 0 then []
    else (if acts[0].Arrive? then [acts[0].frame] else []) + Arrivals(acts[1..])
  }

  /** The frames named by a disposition log, in order. */
  function Frames(log: seq<Disposal>): (fs: seq<Frame>)
    ensures |fs| == |log|
  {
    seq(|log|, i requires 0 <= i < |log| => log[i].frame)
  }

  predicate NoReceive(acts: seq<Action>)
  {
    forall i :: 0 <= i < |acts| ==> !acts[i].Receive?
  }

  /** No frame occurs twice. */
  ghost predicate Unique(fs: seq<Frame>)
  {
    forall f :: multiset(fs)[f] <= 1
  }

  lemma FramesAppend(log: seq<Disposal>, d: Disposal)
    ensures Frames(log + [d]) == Frames(log) + [d.frame]
  {
  }

  /** One action moves frames between the input queue and the log, and adds
      only the frame it brings in. */
  lemma StepConserves(s: State, a: Action)
    ensures var t := Apply(s, a);
            multiset(t.input) + multiset(Frames(t.log))
              == multiset(s.input) + multiset(Frames(s.log))
                 + multiset(if a.Arrive? then [a.frame] else [])
  {
    if a.Iterate? {
      IterateConserves(s, a.image, a.invoke);
    }
  }

  /** An iteration moves at most one frame, the head of the input queue, to
      the log. */
  lemma IterateConserves(s: State, image: seq<uint8>, invoke: Invoke)
    ensures var t := Process(s, image, invoke).next;
            multiset(t.input) + multiset(Frames(t.log))
              == multiset(s.input) + multiset(Frames(s.log))
    ensures var t := Process(s, image, invoke).next;
            || (t.input == s.input && t.log == s.log)
            || (|s.input| > 0 && t.input == s.input[1..]
                && t.log == s.log + [Disposal(RouteFor(s.cfg), s.input[0])])
  {
    var r := Process(s, image, invoke);
    if r.it.Processed? {
      FramesAppend(s.log, r.it.disposal);
      assert s.input == [s.input[0]] + s.input[1..];
    }
  }

  /** Frame conservation: over any run, every frame that was queued or
      arrives is either still queued or in the disposition log. Nothing is
      lost, nothing is created. */
  lemma {:induction false} Conservation(s: State, acts: seq<Action>)
    ensures var r := Run(s, acts);
            multiset(r.input) + multiset(Frames(r.log))
              == multiset(s.input) + multiset(Frames(s.log)) + multiset(Arrivals(acts))
    decreases |acts|
  {
    if |acts| > 0 {
      StepConserves(s, acts[0]);
      Conservation(Apply(s, acts[0]), acts[1..]);
    }
  }

  /** Exactly-once disposal: when no frame is handed to the module twice,
      every frame that was queued or arrives ends the run either still queued
      or disposed, never both, and no frame is ever disposed twice. */
  lemma ExactlyOnce(s: State, acts: seq<Action>)
    requires Unique(s.input + Frames(s.log) + Arrivals(acts))
    ensures var r := Run(s, acts);
            && (forall f :: multiset(Frames(r.log))[f] <= 1)
            && (forall f :: f in s.input || f in Arrivals(acts) ==>
                  (f in r.input <==> f !in Frames(r.log)))
  {
    var r := Run(s, acts);
    var all := s.input + Frames(s.log) + Arrivals(acts);
    Conservation(s, acts);
    assert multiset(r.input) + multiset(Frames(r.log)) == multiset(all);
    forall f
      ensures multiset(Frames(r.log))[f] <= 1
      ensures f in s.input || f in Arrivals(acts) ==> (f in r.input <==> f !in Frames(r.log))
    {
      assert multiset(r.input)[f] + multiset(Frames(r.log))[f] == multiset(all)[f];
      assert multiset(all)[f] <= 1;
      if f in s.input || f in Arrivals(acts) {
        assert f in all;
      }
    }
  }

  /** The configuration, engine and started tasks never change in a run. */
  lemma {:induction false} RunKeepsSetup(s: State, acts: seq<Action>)
    ensures var r := Run(s, acts);
            r.cfg == s.cfg && r.engine == s.engine && r.tasks == s.tasks
    decreases |acts|
  {
    if |acts| > 0 {
      RunKeepsSetup(Apply(s, acts[0]), acts[1..]);
    }
  }

  /** The disposition log only grows, and every entry a run adds takes the
      configuration's priority route. */
  lemma {:induction false} LogFollowsPriority(s: State, acts: seq<Action>)
    ensures var r := Run(s, acts);
            && |s.log| <= |r.log| && r.log[..|s.log|] == s.log
            && (forall i :: |s.log| <= i < |r.log| ==> r.log[i].route == RouteFor(s.cfg))
    decreases |acts|
  {
    if |acts| > 0 {
      var t := Apply(s, acts[0]);
      var r := Run(t, acts[1..]);
      LogFollowsPriority(t, acts[1..]);
      assert |s.log| <= |t.log| && t.log[..|s.log|] == s.log;
      assert r.log[..|s.log|] == s.log by {
        assert r.log[..|s.log|] == r.log[..|t.log|][..|s.log|];
      }
      forall i | |s.log| <= i < |r.log|
        ensures r.log[i].route == RouteFor(s.cfg)
      {
        if i < |t.log| {
          assert r.log[i] == r.log[..|t.log|][i] == t.log[i];
        }
      }
    }
  }

  /** The frames of a log's suffix split at any later position. */
  lemma FramesSplit(log: seq<Disposal>, i: nat, j: nat)
    requires i <= j <= |log|
    ensures Frames(log[i..]) == Frames(log[i..j]) + Frames(log[j..])
  {
    assert log[i..] == log[i..j] + log[j..];
  }

  /** One action sends to the output queue exactly the frame it disposes,
      if the queue exists. */
  lemma OutputStep(s: State, a: Action)
    ensures var t := Apply(s, a);
            && |s.log| <= |t.log| && t.log[..|s.log|] == s.log && t.cfg == s.cfg
            && t.output == s.output + (if s.cfg.hasOutput then Frames(t.log[|s.log|..]) else [])
  {
    var t := Apply(s, a);
    if |t.log| == |s.log| + 1 {
      assert t.log[|s.log|..] == [t.log[|s.log|]];
    } else {
      assert t.log[|s.log|..] == [];
    }
  }

  /** A run only appends to the disposition log. */
  lemma {:induction false} LogExtends(s: State, acts: seq<Action>)
    ensures var r := Run(s, acts);
            |s.log| <= |r.log| && r.log[..|s.log|] == s.log
    decreases |acts|
  {
    if |acts| > 0 {
      var t := Apply(s, acts[0]);
      var r := Run(t, acts[1..]);
      OutputStep(s, acts[0]);
      LogExtends(t, acts[1..]);
      assert r.log[..|s.log|] == r.log[..|t.log|][..|s.log|];
    }
  }

  lemma SliceOfExtension(r: seq<Disposal>, t: seq<Disposal>, i: nat)
    requires i <= |t| <= |r| && r[..|t|] == t
    ensures r[i..|t|] == t[i..]
  {
  }

  /** The output queue receives exactly the frames a run disposes, in order,
      if it exists, and nothing otherwise. */
  lemma {:induction false} OutputMirrorsDisposals(s: State, acts: seq<Action>)
    ensures var r := Run(s, acts);
            && |s.log| <= |r.log|
            && r.output == s.output + (if s.cfg.hasOutput then Frames(r.log[|s.log|..]) else [])
    decreases |acts|
  {
    if |acts| > 0 {
      var t := Apply(s, acts[0]);
      var r := Run(t, acts[1..]);
      assert r == Run(s, acts);
      OutputStep(s, acts[0]);
      OutputMirrorsDisposals(t, acts[1..]);
      LogExtends(t, acts[1..]);
      if s.cfg.hasOutput {
        OutputsCompose(s.output, t.output, r.output, s.log, t.log, r.log);
      }
    }
  }

  /** Two output extensions, each by the frames of its log extension,
      compose into one. */
  lemma OutputsCompose(so: seq<Frame>, to: seq<Frame>, ro: seq<Frame>,
                       sl: seq<Disposal>, tl: seq<Disposal>, rl: seq<Disposal>)
    requires |sl| <= |tl| <= |rl| && rl[..|tl|] == tl
    requires to == so + Frames(tl[|sl|..]) && ro == to + Frames(rl[|tl|..])
    ensures ro == so + Frames(rl[|sl|..])
  {
    FramesSplit(rl, |sl|, |tl|);
    SliceOfExtension(rl, tl, |sl|);
    assert ro == so + (Frames(tl[|sl|..]) + Frames(rl[|tl|..]));
  }

  /** One zero-payload signal per disposed frame if the result queue exists,
      and none otherwise. */
  lemma {:induction false} OneSignalPerFrame(s: State, acts: seq<Action>)
    ensures var r := Run(s, acts);
            && |s.log| <= |r.log|
            && (s.cfg.hasResult ==> |r.results| == |s.results| + (|r.log| - |s.log|))
            && (!s.cfg.hasResult ==> r.results == s.results)
    decreases |acts|
  {
    if |acts| > 0 {
      OneSignalPerFrame(Apply(s, acts[0]), acts[1..]);
    }
  }

  /** One action other than the event task's receive, taken with the gate
      off at the gate. */
  lemma GatedOffStep(s: State, a: Action)
    requires !s.gate && s.pc == AtGate && !a.Receive?
    ensures var t := Apply(s, a);
            && t.input == s.input + (if a.Arrive? then [a.frame] else [])
            && t.log == s.log && t.output == s.output && t.results == s.results
            && !t.gate && t.pc == AtGate
  {
  }

  /** While the gate is off and the processing task is at the gate, and no
      value reaches the gate, the module stops pulling: the input queue only
      grows by what arrives, and no frame is disposed or signalled. */
  lemma {:induction false} GatedOffStopsConsumption(s: State, acts: seq<Action>)
    requires !s.gate && s.pc == AtGate
    requires NoReceive(acts)
    ensures var r := Run(s, acts);
            && r.input == s.input + Arrivals(acts)
            && r.log == s.log && r.output == s.output && r.results == s.results
            && !r.gate && r.pc == AtGate
    decreases |acts|
  {
    if |acts| > 0 {
      var a := acts[0];
      var t := Apply(s, a);
      assert !a.Receive?;
      GatedOffStep(s, a);
      assert NoReceive(acts[1..]) by {
        forall i | 0 <= i < |acts[1..]|
          ensures !acts[1..][i].Receive?
        {
          assert acts[1..][i] == acts[i + 1];
        }
      }
      GatedOffStopsConsumption(t, acts[1..]);
      var here := if a.Arrive? then [a.frame] else [];
      assert Arrivals(acts) == here + Arrivals(acts[1..]);
      assert Run(t, acts[1..]).input == (s.input + here) + Arrivals(acts[1..]);
      assert (s.input + here) + Arrivals(acts[1..]) == s.input + (here + Arrivals(acts[1..]));
    }
  }

  /** The bound of `GatedOffDrainsAtMostOne` is reached: the task finds the
      gate open on an empty queue and blocks receiving; the gate is then
      turned off, and the next frame to arrive is still consumed. */
  lemma GatedOffDrainReached(s: State, image: seq<uint8>, invoke: Invoke, f: Frame)
    requires ProcessTask in s.tasks && EventTask in s.tasks && s.cfg.hasEvent
    requires s.gate && s.pc == AtGate && s.input == [] && s.events == []
    ensures var t := Run(s, [Iterate(image, invoke), Command(false), Receive]);
            && !t.gate && t.pc == AwaitingFrame && t.log == s.log
            && Run(t, [Arrive(f), Iterate(image, invoke)]).log
                 == s.log + [Disposal(RouteFor(s.cfg), f)]
  {
    var s1 := Apply(s, Iterate(image, invoke));
    var s2 := Apply(s1, Command(false));
    var s3 := Apply(s2, Receive);
    assert Run(s, [Iterate(image, invoke), Command(false), Receive]) == s3 by {
      assert [Iterate(image, invoke), Command(false), Receive][1..] == [Command(false), Receive];
      assert [Command(false), Receive][1..] == [Receive];
    }
    var s4 := Apply(s3, Arrive(f));
    var s5 := Apply(s4, Iterate(image, invoke));
    assert Run(s3, [Arrive(f), Iterate(image, invoke)]) == s5 by {
      assert [Arrive(f), Iterate(image, invoke)][1..] == [Iterate(image, invoke)];
      assert Run(s4, [Iterate(image, invoke)]) == Run(s5, []);
    }
  }

  /** A gate turned off while the processing task is already blocked
      receiving does not stop that receive: at most one more frame is
      consumed after the gate goes off, and none if the task was at the
      gate. */
  lemma {:induction false} GatedOffDrainsAtMostOne(s: State, acts: seq<Action>)
    requires !s.gate
    requires NoReceive(acts)
    ensures |Run(s, acts).log| <= |s.log| + (if s.pc == AwaitingFrame then 1 else 0)
    decreases |acts|
  {
    if |acts| > 0 {
      var t := Apply(s, acts[0]);
      assert !acts[0].Receive?;
      if s.pc == AtGate {
        GatedOffStopsConsumption(s, acts);
      } else if t.pc == AtGate {
        GatedOffStopsConsumption(t, acts[1..]);
      } else {
        GatedOffDrainsAtMostOne(t, acts[1..]);
      }
    }
  }
}

=== FILE: setup.dfy ===
/** Registration of the pilotnet module: the handles are stored, then an
    early-exit ladder of setup checks runs, and only when every check passes
    are the tasks started. The engine's setup calls are abstract outcomes. */
module Setup {
  import opened Bytes
  import opened Bridge
  import opened Pilotnet
  import opened Runs

  /** The module's state that outlives one registration: the stored handles
      and `gReturnFB`, whether `tensor_arena` is non-null, the gate `gEvent`,
      and the tasks earlier registrations left running. */
  datatype Globals = Globals(cfg: Config, arena: bool, gate: bool, running: set<Task>)

  /** The static initial values: every handle null, `gReturnFB` true, the
      arena null, `gEvent` true, and no task running yet. */
  function Boot(): (g: Globals)
    ensures !g.cfg.hasOutput && !g.cfg.hasResult && !g.cfg.hasEvent && g.cfg.returnFB
    ensures !g.arena && g.gate && g.running == {}
    ensures RouteFor(g.cfg) == ReturnedToCamera
  {
    Globals(Config(false, false, false, true), false, true, {})
  }

  /** The outcomes of the foreign setup calls: whether the model's schema
      version equals the engine's, whether `heap_caps_malloc` returns an
      arena, whether `AllocateTensors` succeeds, and whether each
      `xTaskCreatePinnedToCore` call creates its task. */
  datatype SetupOutcome = SetupOutcome(
    versionMatches: bool,
    mallocSucceeds: bool,
    tensorsAllocated: bool,
    processTaskCreated: bool,
    eventTaskCreated: bool)

  /** The return code, the tasks started, the globals afterwards, and which
      of the two allocation calls were made. */
  datatype Registration = Registration(
    code: int,
    started: set<Task>,
    globals: Globals,
    mallocCalled: bool,
    allocateCalled: bool)

  /** `register_algo_pilotnet`. */
  function Register(g: Globals, cfg: Config, o: SetupOutcome): (r: Registration)
    ensures r.code == 0 || r.code == -1
    ensures r.globals.cfg == cfg && r.globals.gate == g.gate
    ensures r.code == 0 <==> o.versionMatches && (g.arena || o.mallocSucceeds) && o.tensorsAllocated
    ensures r.code != 0 ==> r.started == {}
    ensures r.code == 0 ==>
              && (ProcessTask in r.started <==> o.processTaskCreated)
              && (EventTask in r.started <==> cfg.hasEvent && o.eventTaskCreated)
    ensures r.mallocCalled <==> o.versionMatches && !g.arena
    ensures r.allocateCalled <==> o.versionMatches && (g.arena || o.mallocSucceeds)
    ensures r.globals.arena <==> g.arena || (r.mallocCalled && o.mallocSucceeds)
    ensures r.globals.running == g.running + r.started
  {
    var stored := g.(cfg := cfg);
    if !o.versionMatches then Registration(-1, {}, stored, false, false)
    else
      var mallocCalled := !stored.arena;
      var placed := stored.(arena := stored.arena || o.mallocSucceeds);
      if !placed.arena then Registration(-1, {}, placed, mallocCalled, false)
      else if !o.tensorsAllocated then Registration(-1, {}, placed, mallocCalled, true)
      else
        var tasks := (if o.processTaskCreated then {ProcessTask} else {})
                   + (if cfg.hasEvent && o.eventTaskCreated then {EventTask} else {});
        Registration(0, tasks, placed.(running := placed.running + tasks), mallocCalled, true)
  }

  /** The checks run in order and the first failure ends registration: a
      version mismatch leaves the arena alone, and a missing arena means
      `AllocateTensors` is never reached. */
  lemma ChecksRunInOrder(g: Globals, cfg: Config, o: SetupOutcome)
    ensures var r := Register(g, cfg, o);
            && (!o.versionMatches ==> r.code == -1 && !r.mallocCalled && r.globals.arena == g.arena)
            && (!r.globals.arena ==> r.code == -1 && !r.allocateCalled)
  {
  }

  /** The return code does not depend on task creation: the results of
      `xTaskCreatePinnedToCore` are never checked, so registration reports
      success even when a task could not be created. */
  lemma ReturnCodeIgnoresTaskCreation(g: Globals, cfg: Config, o: SetupOutcome, p: bool, e: bool)
    ensures Register(g, cfg, o).code
         == Register(g, cfg, o.(processTaskCreated := p, eventTaskCreated := e)).code
  {
  }

  /** The arena is allocated only while it is null: registering again after
      a successful registration never calls the allocator, whatever the
      outcomes. */
  lemma ReRegistrationKeepsArena(g: Globals, cfg: Config, o: SetupOutcome, cfg2: Config, o2: SetupOutcome)
    requires Register(g, cfg, o).code == 0
    ensures var r2 := Register(Register(g, cfg, o).globals, cfg2, o2);
            !r2.mallocCalled && r2.globals.arena
  {
  }

  /** The module right after registration: empty queues, the processing task
      at the gate, and every task running, whether this registration or an
      earlier one started it. The running tasks read the handles just
      stored. */
  function Start(reg: Registration, engine: Engine, mem: seq<int8>, outQ: int8): (s: State)
    ensures s.tasks == reg.globals.running
    ensures s.cfg == reg.globals.cfg && s.gate == reg.globals.gate
    ensures s.engine == engine && s.tensor == mem && s.outQ == outQ
    ensures s.input == [] && s.output == [] && s.results == [] && s.events == []
    ensures s.log == [] && s.pc == AtGate
  {
    State(reg.globals.cfg, engine, reg.globals.running, reg.globals.gate, AtGate,
          [], [], [], [], [], mem, outQ)
  }

  /** With no task started, a run only queues what arrives. */
  lemma {:induction false} IdleRun(s: State, acts: seq<Action>)
    requires s.tasks == {}
    ensures var r := Run(s, acts);
            && r.input == s.input + Arrivals(acts)
            && r.log == s.log && r.output == s.output && r.results == s.results
            && r.gate == s.gate && r.tasks == {}
    decreases |acts|
  {
    if |acts| > 0 {
      var a := acts[0];
      var t := Apply(s, a);
      IdleStep(s, a);
      IdleRun(t, acts[1..]);
      var here := if a.Arrive? then [a.frame] else [];
      assert Arrivals(acts) == here + Arrivals(acts[1..]);
      assert (s.input + here) + Arrivals(acts[1..]) == s.input + (here + Arrivals(acts[1..]));
    }
  }

  /** With no task started, one action only queues what it brings. */
  lemma IdleStep(s: State, a: Action)
    requires s.tasks == {}
    ensures var t := Apply(s, a);
            && t.input == s.input + (if a.Arrive? then [a.frame] else [])
            && t.log == s.log && t.output == s.output && t.results == s.results
            && t.gate == s.gate && t.tasks == {}
  {
  }

  /** Setup fails before any task starts: when no earlier registration left
      a task running, after a failed registration no frame is ever consumed,
      disposed or signalled, and the gate never changes. */
  lemma FailedSetupNeverConsumes(g: Globals, cfg: Config, o: SetupOutcome, engine: Engine,
                                 mem: seq<int8>, outQ: int8, acts: seq<Action>)
    requires g.running == {}
    requires Register(g, cfg, o).code != 0
    ensures var r := Run(Start(Register(g, cfg, o), engine, mem, outQ), acts);
            && r.input == Arrivals(acts)
            && r.log == [] && r.output == [] && r.results == []
            && r.gate == g.gate
  {
    IdleRun(Start(Register(g, cfg, o), engine, mem, outQ), acts);
  }

  /** A failed registration does not stop what an earlier one started: the
      handles are overwritten before the first check fails, so a processing
      task left running by a successful registration keeps consuming frames
      while the gate is open, and disposes of them by the new handles'
      priority. */
  lemma FailedReRegistrationKeepsRunning(g: Globals, cfg: Config, o: SetupOutcome,
                                         cfg2: Config, o2: SetupOutcome, engine: Engine,
                                         mem: seq<int8>, outQ: int8, f: Frame,
                                         image: seq<uint8>, invoke: Invoke)
    requires Register(g, cfg, o).code == 0 && ProcessTask in Register(g, cfg, o).started
    requires Register(Register(g, cfg, o).globals, cfg2, o2).code != 0
    ensures var r2 := Register(Register(g, cfg, o).globals, cfg2, o2);
            var s := Start(r2, engine, mem, outQ);
            var step := Process(Run(s, [Arrive(f)]), image, invoke);
            && ProcessTask in s.tasks && s.cfg == cfg2 && s.gate == g.gate
            && (g.gate ==> step.it.Processed? && step.next.log == [Disposal(RouteFor(cfg2), f)])
  {
    var r2 := Register(Register(g, cfg, o).globals, cfg2, o2);
    var s := Start(r2, engine, mem, outQ);
    assert Run(s, [Arrive(f)]) == Run(Apply(s, Arrive(f)), []);
  }

  /** The end-to-end scenario: an RGB model (three channels) whose output
      zero point is -10, no output queue, pool return enabled and a result
      queue. One frame arrives and one iteration runs with the engine
      producing q = 12: the frame is returned to the camera exactly once, one
      signal is sent, and the decoded offset is 12 - (-10) = 22. */
  lemma EndToEnd(mem: seq<int8>, image: seq<uint8>, f: Frame, o: SetupOutcome)
    requires o.versionMatches && o.mallocSucceeds && o.tensorsAllocated && o.processTaskCreated
    ensures var cfg := Config(false, true, false, true);
            var reg := Register(Boot(), cfg, o);
            var s := Start(reg, Engine(3, -10), mem, 0);
            var step := Process(Run(s, [Arrive(f)]), image, InvokeOk(12));
            && reg.code == 0 && reg.started == {ProcessTask}
            && step.it == Processed(f, Rgb888, true, Disposal(ReturnedToCamera, f), 22)
            && step.next.log == [Disposal(ReturnedToCamera, f)]
            && step.next.results == [Done]
            && step.next.input == [] && step.next.output == []
  {
    var cfg := Config(false, true, false, true);
    var s := Start(Register(Boot(), cfg, o), Engine(3, -10), mem, 0);
    assert Run(s, [Arrive(f)]) == Run(Apply(s, Arrive(f)), []);
  }
}
